=== FILE: README.md ===
# TangleCache retention cache, modelled in Dafny

Hornet's TangleCache is a pinning layer over the node's reference-counted
object cache. It keeps messages, message metadata and child edges retained
until they can no longer be needed. It holds three maps from a milestone index
to a list of retained handles, plus a watermark (`minMilestoneIndex`). An add
below the watermark is refused. The TangleCache plugin drives it:

- every newly stored or solid message is added with its metadata and child
  edges under one milestone index;
- every referenced metadata is added once more;
- every confirmed milestone `I` first sets the watermark to `I`, then
  force-releases message buckets up to `I - 1`, and, once `I` has reached the
  configured below-max-depth `D`, metadata and child-edge buckets up to `I - D`;
- at shutdown the plugin detaches its three handlers from the four event
  subscriptions and then calls `Cleanup`.

The model is functional. A cache is an immutable value. Each operation returns
the new cache together with the Retain/Release traffic it sends to the object
cache, as a multiset ledger. The central invariant is `TangleCache.Balanced`:
every reference retained so far has either been released or is held by the
cache, one per stored occurrence. Equivalently, nothing leaks and nothing is
released twice.

Modules:

- `Refs`: handles (message, metadata, child edge) and the traffic ledger
  (retained, force-released and lazily released handles).
- `Buckets`: index-keyed buckets, the multiset of handles a bucket map stores
  (`Flatten`), and the split at a release boundary.
- `TangleCache`: the cache operations as intended. A release removes every
  bucket it releases, and Cleanup empties the maps. Also the balance invariant
  and the lemmas that every operation keeps it.
- `LiteralCache`: the release loops and Cleanup as the source writes them,
  with the discrepancies listed under Findings.
- `TangleCachePlugin`: the three event handlers, the window policy, and the
  lifecycle (configure, attach, deliver, detach, Cleanup).

Two facts about the code shape the model:

- `SetMinMilestoneIndex` (pkg/model/storage/tangle_cache.go:41) assigns the
  new value without taking a maximum, so the watermark can go down.
  `TangleCache.SetMinIndex` does the same.
  `TangleCachePlugin.WatermarkFollowsConfirmations` states exactly when the
  watermark grows.
- The release loops delete only the boundary key
  (pkg/model/storage/tangle_cache.go:102, 119 and 136), and Cleanup empties no
  map. The corrected operations are in `TangleCache` and the literal ones in
  `LiteralCache` (see Findings). The plugin's handlers are built on the
  corrected operations (see Left out).

## Model

| member | source | states |
|---|---|---|
| `TangleCache.New` | pkg/model/storage/tangle_cache.go:17-24 | A new cache has three empty maps, watermark 0, stores nothing and is balanced with no traffic. |
| `TangleCache.SetMinIndex` | pkg/model/storage/tangle_cache.go:38-42 | The watermark becomes exactly the given index, lower or higher than before; no map, stored handle or reference count changes. |
| `TangleCache.Add` | pkg/model/storage/tangle_cache.go:44-87 | Below the watermark the cache is unchanged and the borrowed references are only released. At or above it, the handles are appended in order at the end of the bucket for the index, creating it if absent. Every other bucket, map and the watermark are unchanged. One retain per admitted handle, one forced release per borrowed handle. |
| `TangleCache.AddStores` | pkg/model/storage/tangle_cache.go:44-87 | An add stores exactly the admitted handles more, and nothing when refused. |
| `TangleCache.AddNet` | pkg/model/storage/tangle_cache.go:44-87 | Net count change of an add: minus the handle's multiplicity when refused, zero when admitted; the watermark index itself is admitted. |
| `TangleCache.DispatchedAddNet` | pkg/model/storage/tangle_cache.go:8-14 | With the reference the event caller retains, an add changes each handle's count by exactly its newly stored occurrences: the deferred release consumes the caller's reference. |
| `TangleCache.Release` | pkg/model/storage/tangle_cache.go:89-138 | The intended release: every handle in every bucket of index at most B is released once with the given force flag. Those buckets are removed; buckets above B, the other maps and the watermark are untouched. |
| `TangleCache.ReleaseConserves` | pkg/model/storage/tangle_cache.go:89-138 | What a release releases plus what stays stored is exactly what was stored before. |
| `TangleCache.ReleaseTwiceReleasesNothing` | pkg/model/storage/tangle_cache.go:89-104 | After a release at B, a second release at B changes nothing and releases nothing. |
| `TangleCache.Cleanup` | pkg/model/storage/tangle_cache.go:142-166 | The intended Cleanup: every stored handle of the three maps is released once with force and the maps are left empty. |
| `TangleCache.CleanupTwiceIsQuiet` | pkg/model/storage/tangle_cache.go:142-166 | A second Cleanup changes nothing and issues no traffic. |
| `TangleCache.AddAccounts` | pkg/model/storage/tangle_cache.go:44-87 | An add uses up exactly the references lent for it and keeps the reference accounting. |
| `TangleCache.ReleaseAccounts` | pkg/model/storage/tangle_cache.go:89-138 | A release keeps the reference accounting: it gives back exactly the references of the buckets it removes. |
| `TangleCache.CleanupAccounts` | pkg/model/storage/tangle_cache.go:142-166 | Cleanup keeps the reference accounting. |
| `TangleCache.CleanupSettles` | pkg/model/storage/tangle_cache.go:142-166 | Cleanup of a balanced cache brings every handle's net reference count to zero. |
| `Buckets.Append` | pkg/model/storage/tangle_cache.go:53-56 | Appending creates the key if absent, puts the handles at the end of that bucket and leaves every other bucket alone. |
| `LiteralCache.ReleaseWalk` | pkg/model/storage/tangle_cache.go:93-103 | The range loop as written: it only ever deletes the boundary key, keeps every other bucket unchanged, and releases every bucket below the boundary that it visits. Everything it releases comes from a visited bucket at or below the boundary. |
| `LiteralCache.ReleaseLiteral` | pkg/model/storage/tangle_cache.go:89-138 | The release as written, for one iteration order: every bucket other than the boundary one stays in the map, every bucket strictly below the boundary is released, nothing is retained. |
| `LiteralCache.ReleaseLiteralOnlyAtMost` | pkg/model/storage/tangle_cache.go:93-101 | Every handle a literal release releases was stored in a bucket at or below the boundary: buckets above it are passed over. |
| `LiteralCache.SuccessiveReleasesOverRelease` | plugins/tanglecache/plugin.go:91-94 | Literal releases at boundaries b1 <= b2, as successive confirmations I and I + 1 issue at I - 1 and I: from a balanced cache, a handle stored once in a bucket below b1 is released more often than it was retained. |
| `LiteralCache.ReleaseLiteralTwice` | pkg/model/storage/tangle_cache.go:89-104 | Two literal releases at the same boundary release every bucket strictly below it twice. |
| `LiteralCache.LiteralReleaseTwiceOverReleases` | pkg/model/storage/tangle_cache.go:93-103 | From a balanced cache, a handle stored once below the boundary is released more often than it was retained after two literal releases. |
| `LiteralCache.DoubleReleaseWitness` | pkg/model/storage/tangle_cache.go:93-103 | Message buckets 1 and 2 with boundary 5: in either range order the literal release releases both and leaves the map as it was. |
| `LiteralCache.TwoBucketsBelow` | pkg/model/storage/tangle_cache.go:93-103 | Over two buckets below a boundary the map does not hold, the literal release releases both and deletes nothing. |
| `LiteralCache.LowerBucketFirst` | pkg/model/storage/tangle_cache.go:93-103 | With buckets k < B ranged k first, the lower bucket is released and kept while bucket B is deleted without a release. |
| `LiteralCache.BoundaryBucketNet` | pkg/model/storage/tangle_cache.go:93-103 | In that case each handle's net count is off its stored occurrences by its count in bucket B less its count in bucket k. |
| `LiteralCache.BoundaryBucketLeaks` | pkg/model/storage/tangle_cache.go:93-103 | Hence the literal release leaves a balanced cache unbalanced whenever the two buckets differ. |
| `LiteralCache.CleanupLiteral` | pkg/model/storage/tangle_cache.go:142-166 | Cleanup as written: every stored handle is force-released once and the maps are left as they were. |
| `LiteralCache.CleanupLiteralTwiceOverReleases` | pkg/model/storage/tangle_cache.go:142-166 | After the literal Cleanup a non-empty balanced cache is unbalanced, and a second literal Cleanup releases a stored handle more often than it was retained. |
| `TangleCachePlugin.Dispatch` | pkg/model/storage/tangle_cache.go:8-14 | The callers only retain. A cached message hands its handler exactly one fresh reference each to the message, its metadata and every child edge. A referenced metadata hands exactly one to the metadata. A confirmation hands none. |
| `TangleCachePlugin.OnMessageCached` | plugins/tanglecache/plugin.go:73-77 | The watermark is unchanged. Every dispatched reference (message, metadata, child edges) is force-released once by its add's deferred release. When admitted, the cache retains each once more; when refused, it retains nothing. |
| `TangleCachePlugin.OnMetadataReferenced` | plugins/tanglecache/plugin.go:84-86 | The watermark is unchanged. The dispatched metadata reference is force-released once, and retained once more by the cache when admitted. |
| `TangleCachePlugin.OnConfirmedMilestone` | plugins/tanglecache/plugin.go:91-100 | The watermark becomes I. Exactly the message buckets from I on stay. Metadata and child-edge maps are untouched when I < D; otherwise exactly their buckets above I - D stay. Nothing is retained and every release is forced. |
| `TangleCachePlugin.Notify` | plugins/tanglecache/plugin.go:64-101 | A confirmation sets the watermark to its index; the other two handlers leave it alone. |
| `TangleCachePlugin.Configure` | plugins/tanglecache/plugin.go:46-50 | A configured node has a new cache: watermark 0, three maps with no keys, nothing stored, no reference traffic yet, balanced; no handler is attached. |
| `TangleCachePlugin.Start` | plugins/tanglecache/plugin.go:103-108 | Starting attaches a handler to every source and touches neither the cache nor the traffic. |
| `TangleCachePlugin.Deliver` | plugins/tanglecache/plugin.go:103-115 | A notification from a detached source changes nothing. The attached sources never change. A handled notification keeps a balanced cache balanced. |
| `TangleCachePlugin.DeliverAll` | plugins/tanglecache/plugin.go:52-57 | Deliveries never change which handlers are attached, and with none attached they change nothing. |
| `TangleCachePlugin.Shutdown` | plugins/tanglecache/plugin.go:56-59 | Shutdown detaches every handler and empties the maps. It retains nothing, issues no lazy release, and force-releases exactly what the cache stored. |
| `TangleCachePlugin.OnConfirmed` | plugins/tanglecache/plugin.go:91-100 | A confirmation of I sets the watermark to I. It force-releases and removes message buckets up to I - 1 and keeps bucket I. Metadata and child-edge buckets up to I - D go the same way only when I >= D. The forced traffic is exactly those buckets' handles. |
| `TangleCachePlugin.LateAddRefused` | plugins/tanglecache/plugin.go:91-94 | The watermark is raised first: after a confirmation of I, an add of any kind below I is refused and its borrowed references only given back. |
| `TangleCachePlugin.WindowExample` | plugins/tanglecache/plugin.go:95-99 | With D = 5, confirming 12 removes metadata buckets up to 7 and keeps those from 8; confirming 3 removes none. |
| `TangleCachePlugin.MessagesNotKeptLongerThanMetadata` | plugins/tanglecache/plugin.go:88-99 | With D >= 1, a confirmation that removes a metadata or child-edge bucket also leaves no message bucket under that index. |
| `TangleCachePlugin.ConfirmedReleasesBucket` | plugins/tanglecache/plugin.go:95-99 | A confirmation whose metadata boundary reaches index i removes metadata bucket i and releases every occurrence it held. |
| `TangleCachePlugin.WatermarkFollowsConfirmations` | plugins/tanglecache/plugin.go:91-92 | A confirmation moves the watermark to its index and no other notification moves it; the watermark does not go down exactly when the confirmation is not below it. |
| `TangleCachePlugin.MessageFiledTogether` | plugins/tanglecache/plugin.go:73-77 | A cached message at or above the watermark appends the message, its metadata and its child edges, in that order, to the buckets of one index, creating the index where absent. Every other bucket of the three maps is unchanged. |
| `TangleCachePlugin.MessageBelowWatermark` | plugins/tanglecache/plugin.go:73-77 | A cached message below the watermark changes no bucket, and every dispatched reference is given back. |
| `TangleCachePlugin.MetadataFiledTwice` | plugins/tanglecache/plugin.go:79-86 | Metadata referenced twice is filed twice under its index, and the cache takes one reference per filing. |
| `TangleCachePlugin.MetadataReferencedTwice` | plugins/tanglecache/plugin.go:79-86 | Those two filings are both released once a confirmation moves the metadata window past the index. |
| `TangleCachePlugin.MessageKeepsBalance` | plugins/tanglecache/plugin.go:73-77 | The message handler keeps the cache balanced: its three adds use up exactly the references dispatched with it. |
| `TangleCachePlugin.MetadataKeepsBalance` | plugins/tanglecache/plugin.go:84-86 | The metadata handler keeps the cache balanced. |
| `TangleCachePlugin.ConfirmedKeepsBalance` | plugins/tanglecache/plugin.go:91-100 | The confirmation handler keeps the cache balanced. |
| `TangleCachePlugin.NotifyKeepsBalance` | plugins/tanglecache/plugin.go:64-101 | Every notification, handled by the handler configured for it, keeps the cache balanced. |
| `TangleCachePlugin.DeliverAllKeepsBalance` | plugins/tanglecache/plugin.go:103-108 | Any sequence of notifications from the four sources keeps the cache balanced, whether each handler is attached or not. |
| `TangleCachePlugin.LifetimeSettles` | plugins/tanglecache/plugin.go:52-62 | Configure, attach, any notifications, detach and Cleanup: every handler ends detached, the maps empty, and every handle's net reference count zero. |
| `TangleCachePlugin.LateNotificationIgnored` | plugins/tanglecache/plugin.go:110-115 | After shutdown every handler is detached, so a late notification changes nothing and pins nothing. |
| `TangleCachePlugin.CleanupBeforeDetachPins` | plugins/tanglecache/plugin.go:56-59 | Why detach comes first: a message delivered to a still-attached handler after Cleanup would stay stored with no release to come. |

## Left out

- Locking (`syncutils.Mutex`) and multi-threaded event delivery. Each cache operation and each notification is one atomic step on an immutable value.
- Closure creation, event attach/detach mechanics, dependency injection, logging and the background-worker daemon. Only which handlers are attached is modelled, and the detach-then-Cleanup order in `run`.
- The object cache's own reference counters and its lazy or forced eviction. Traffic is recorded as multisets of Retain and Release calls; the force flag is recorded but has no meaning in the model.
- `GetCachedMetadata` (plugins/tanglecache/plugin.go:75) is a foreign call with no body here. It is taken to return one freshly retained metadata handle, which the handler passes to the add.
- Both message sources are taken to dispatch through `CachedMessageCaller`, retaining the message and every child edge. `CachedMetadataReferenced` is taken to dispatch through `CachedMetadataCaller`.
- Unsigned width of milestone indices. Indices are unbounded naturals. A confirmation must have index at least 1, because `msIndex - 1` at index 0 would wrap around. `BelowMaxDepth` is an `int` converted to an index; it is modelled as a natural, and a negative setting is not modelled.
- Go map iteration order. The intended operations are stated over key sets and do not depend on it. The literal release takes the iteration order as a parameter, because its outcome depends on it.
- The order of Retain and Release calls within a step. Traffic is a multiset, so only the final count of each handle after a step is modelled, not the counts in between. In particular the model does not record that `Add` retains its copy (pkg/model/storage/tangle_cache.go:56) before the deferred release of the borrowed reference (line 47) fires, so the count never passes through zero. Nor does it record that the message handler fetches the metadata (plugins/tanglecache/plugin.go:75) only after `AddCachedMessage` has force-released the handler's message reference; `TangleCachePlugin.Dispatch` places that retain before all three adds. Any use-after-release that this interleaving could allow or prevent is not modelled.
- `TangleCache.Release`, `TangleCache.Cleanup`, `TangleCache.Stored`, `LiteralCache.CleanupLiteral`, and the plugin's `OnConfirmedMilestone`, `Notify`, `Deliver`, `DeliverAll` and `Shutdown` are ghost: the multiset of stored handles is a sum over map keys, and it cannot be computed in a chosen order.
- The plugin does not require confirmations to arrive in increasing order. `TangleCachePlugin.WatermarkFollowsConfirmations` states what happens to the watermark in either case.
- LiteralCache.ReleaseLiteral: its own contract states only which buckets stay and that buckets strictly below the boundary are released. `LiteralCache.ReleaseLiteralOnlyAtMost` adds that nothing above the boundary is released. Its exact outcome is stated by `LiteralCache.TwoBucketsBelow` and `LiteralCache.LowerBucketFirst` for two-bucket maps, not for maps in general.
- TangleCachePlugin: the handlers and the shutdown are modelled over the corrected `TangleCache.Release` and `TangleCache.Cleanup`, not over the loops as written. So `OnConfirmed`, `ConfirmedKeepsBalance`, `NotifyKeepsBalance`, `DeliverAllKeepsBalance` and `LifetimeSettles` describe the corrected program. With the loops as written, confirmations keep released message buckets below I - 1 and release them again at the next confirmation (`LiteralCache.SuccessiveReleasesOverRelease`). They can drop the boundary bucket unreleased (`LiteralCache.BoundaryBucketLeaks`). Cleanup leaves the three maps full (`LiteralCache.CleanupLiteral`).
- The handles of an add are not tied to the map they are filed in. The types of the event parameters are enforced on notifications (`TangleCachePlugin.Deliverable`), which is the only way the plugin calls the adds.
- plugins/prometheus/database.go is not part of this model: it is a metrics observer with no behaviour of the cache.
- pkg/database/badger.go is not part of this model: it tunes storage-engine options of an external library.

## Findings

| source | as written | input that shows it | evidently intended | confidence | as-written member | corrected member |
|---|---|---|---|---|---|---|
| pkg/model/storage/tangle_cache.go:102 | Each release loop deletes the key equal to the boundary after releasing any qualifying bucket (lines 102, 119 and 136), so a released bucket strictly below the boundary stays in the map | Message buckets 1 and 2, each holding one message, then confirmations 6 and 7, which call `ReleaseCachedMessages(5)` and then `ReleaseCachedMessages(6)`: each message is released twice | Delete the bucket being visited, so that no key at or below the boundary remains and a repeated release releases nothing | high; not executed | `LiteralCache.SuccessiveReleasesOverRelease` | `TangleCache.ReleaseTwiceReleasesNothing` |
| pkg/model/storage/tangle_cache.go:93-103 | Deleting the boundary key in the middle of the range removes the boundary bucket before the loop reaches it, when a lower key happens to be visited first | Message buckets 4 and 5 holding different messages, then `ReleaseCachedMessages(5)` visiting 4 first: bucket 5's references are dropped without a release (a leak), while bucket 4 is released but kept | Release every bucket at or below the boundary exactly once and remove each of them | high for the lost bucket, which depends on the map's iteration order; not executed | `LiteralCache.BoundaryBucketLeaks` | `TangleCache.ReleaseAccounts` |
| pkg/model/storage/tangle_cache.go:142-166 | Cleanup releases every stored handle with force but never empties the three maps | Any non-empty cache with `Cleanup` called twice: the second call releases every stored handle again | Empty the maps, so that the cache holds no reference after Cleanup and a second Cleanup does nothing | medium: the plugin calls Cleanup once, after detaching, so the stale entries are never reached there; not executed | `LiteralCache.CleanupLiteralTwiceOverReleases` | `TangleCache.CleanupTwiceIsQuiet` |

=== FILE: buckets.dfy ===
/**
 Index-keyed buckets of retained handles: one map of the retention cache,
 from a milestone index to the handles filed under it, in insertion order and
 with duplicates allowed.
 */
module Buckets {
  import opened Refs

  /** A milestone index. Index 0 means "unset". */
  type Index = nat

  type Buckets = map<Index, seq<Handle>>

  /** The handles filed under `i`; an absent key holds none. */
  function Bucket(b: Buckets, i: Index): seq<Handle>
  {
    if i in b then b[i] else []
  }

  /** Every handle stored in `b`, counted once per occurrence. */
  ghost function Flatten(b: Buckets): multiset<Handle>
    decreases |b|
  {
    if b == map[] then multiset{}
    else
      var k :| k in b;
      multiset(b[k]) + Flatten(b - {k})
  }

  /** `hs` appended to the end of the bucket for `i`, the key being created when
      absent. */
  function Append(b: Buckets, i: Index, hs: seq<Handle>): (r: Buckets)
    ensures r.Keys == b.Keys + {i}
    ensures r[i] == Bucket(b, i) + hs
    ensures forall k :: k in b && k != i ==> r[k] == b[k]
  {
    b[i := Bucket(b, i) + hs]
  }

  /** The buckets whose index is above `bound`. */
  function Above(b: Buckets, bound: Index): (r: Buckets)
    ensures forall k :: k in r <==> k in b && k > bound
    ensures forall k :: k in r ==> r[k] == b[k]
  {
    map k | k in b && k > bound :: b[k]
  }

  /** The buckets whose index is at most `bound`. */
  function AtMost(b: Buckets, bound: Index): (r: Buckets)
    ensures forall k :: k in r <==> k in b && k <= bound
    ensures forall k :: k in r ==> r[k] == b[k]
  {
    map k | k in b && k <= bound :: b[k]
  }

  /** Flatten does not depend on which key it takes first. */
  lemma {:induction false} FlattenPick(b: Buckets, k: Index)
    requires k in b
    ensures Flatten(b) == multiset(b[k]) + Flatten(b - {k})
    decreases |b|
  {
    var j :| j in b && Flatten(b) == multiset(b[j]) + Flatten(b - {j});
    if j != k {
      var rest := b - {j} - {k};
      assert b - {j} - {k} == b - {k} - {j};
      assert |b - {j}| < |b| && |b - {k}| < |b|;
      FlattenPick(b - {j}, k);
      FlattenPick(b - {k}, j);
      assert Flatten(b - {j}) == multiset(b[k]) + Flatten(rest);
      assert Flatten(b - {k}) == multiset(b[j]) + Flatten(rest);
    }
  }

  /** A single bucket stores exactly its handles. */
  lemma FlattenSingle(i: Index, hs: seq<Handle>)
    ensures Flatten(map[i := hs]) == multiset(hs)
  {
    var b := map[i := hs];
    FlattenPick(b, i);
    assert b - {i} == map[];
  }

  /** The handles of two buckets maps with disjoint indices add up. */
  lemma {:induction false} FlattenUnion(a: Buckets, c: Buckets)
    requires a.Keys !! c.Keys
    ensures Flatten(a + c) == Flatten(a) + Flatten(c)
    decreases |a|
  {
    if a == map[] {
      assert a + c == c;
    } else {
      var k :| k in a;
      UnionPick(a, c, k);
      RemoveShrinks(a, k);
      FlattenUnion(a - {k}, c);
      FlattenPick(a, k);
      Regroup(Flatten(a + c), multiset(a[k]), Flatten(a - {k}), Flatten(c), Flatten(a));
    }
  }

  lemma Swap(total: multiset<Handle>, x: multiset<Handle>, y: multiset<Handle>, z: multiset<Handle>, xz: multiset<Handle>)
    requires total == (x + y) + z && xz == x + z
    ensures total == xz + y
  {
  }

  lemma Regroup(total: multiset<Handle>, x: multiset<Handle>, y: multiset<Handle>, z: multiset<Handle>, xy: multiset<Handle>)
    requires total == x + (y + z) && xy == x + y
    ensures total == xy + z
  {
  }

  /** Taking a key of `a` out of the union of disjoint maps `a` and `c`. */
  lemma UnionPick(a: Buckets, c: Buckets, k: Index)
    requires a.Keys !! c.Keys && k in a
    ensures (a - {k}).Keys !! c.Keys
    ensures Flatten(a + c) == multiset(a[k]) + Flatten((a - {k}) + c)
  {
    assert k in a + c && (a + c)[k] == a[k];
    FlattenPick(a + c, k);
    RemoveFromUnion(a, c, k);
  }

  lemma RemoveFromUnion(a: Buckets, c: Buckets, k: Index)
    requires a.Keys !! c.Keys && k in a
    ensures (a + c) - {k} == (a - {k}) + c
  {
  }

  lemma RemoveShrinks(a: Buckets, k: Index)
    requires k in a
    ensures |a - {k}| < |a|
  {
    assert a.Keys == (a - {k}).Keys + {k};
  }

  /** Splitting at a boundary loses and duplicates no handle: what is released
      at or below `bound` plus what stays above it is everything stored. */
  lemma FlattenSplit(b: Buckets, bound: Index)
    ensures Flatten(b) == Flatten(AtMost(b, bound)) + Flatten(Above(b, bound))
  {
    assert AtMost(b, bound) + Above(b, bound) == b;
    FlattenUnion(AtMost(b, bound), Above(b, bound));
  }

  /** Appending `hs` stores exactly the handles of `hs` more. */
  lemma FlattenAppend(b: Buckets, i: Index, hs: seq<Handle>)
    ensures Flatten(Append(b, i, hs)) == Flatten(b) + multiset(hs)
  {
    var r: Buckets := Append(b, i, hs);
    var rest: Buckets := b - {i};
    FlattenPick(r, i);
    assert r - {i} == rest;
    assert multiset(r[i]) == multiset(Bucket(b, i)) + multiset(hs);
    if i in b {
      FlattenPick(b, i);
    } else {
      assert rest == b;
    }
    Swap(Flatten(r), multiset(Bucket(b, i)), multiset(hs), Flatten(rest), Flatten(b));
  }
}

=== FILE: literal_cache.dfy ===
/**
 The release operations of the retention cache as the source writes them.

 Each release loop ranges over the map and, after releasing a qualifying
 bucket, deletes the key equal to the boundary rather than the key it is
 visiting. Ranging over a map visits its keys in an order the runtime picks
 afresh each time, and an entry deleted before it is reached is not visited;
 that order is a parameter here. Cleanup releases everything but empties no
 map.
 */
module LiteralCache {
  import opened Refs
  import opened Buckets
  import opened TangleCache

  /** `order` is a possible iteration order of `b`: every key exactly once. */
  predicate IterationOrder(order: seq<Index>, b: Buckets)
  {
    && (forall k :: k in order ==> k in b)
    && (forall k :: k in b ==> k in order)
    && (forall x, y :: 0 <= x < y < |order| ==> order[x] != order[y])
  }

  /** The release loop over the live map `b`, visiting the keys of `order`: an
      entry no longer present is skipped, one above `bound` is passed over,
      any other has its bucket released and then the key `bound` deleted.
      Returns the map left behind and the handles released, in release order. */
  function ReleaseWalk(b: Buckets, bound: Index, order: seq<Index>): (r: (Buckets, seq<Handle>))
    ensures forall k :: k in r.0 ==> k in b && r.0[k] == b[k]
    ensures forall k :: k in b && k != bound ==> k in r.0
    ensures forall k :: k in order && k in b && k < bound ==> multiset(b[k]) <= multiset(r.1)
    ensures forall h :: h in r.1 ==> exists k :: k in order && k in b && k <= bound && h in b[k]
    decreases |order|
  {
    if order == [] then (b, [])
    else
      var k := order[0];
      if k !in b || k > bound then
        ReleaseWalk(b, bound, order[1..])
      else
        var rest := ReleaseWalk(b - {bound}, bound, order[1..]);
        (rest.0, b[k] + rest.1)
  }

  /** ReleaseCached* as written, for one iteration order of the map. */
  function ReleaseLiteral(c: Cache, kind: Kind, bound: Index, force: bool, order: seq<Index>): (o: Outcome)
    requires IterationOrder(order, Store(c, kind))
    ensures o.cache.minIndex == c.minIndex
    ensures forall k :: k != kind ==> Store(o.cache, k) == Store(c, k)
    ensures forall k :: k in Store(c, kind) && k != bound ==> k in Store(o.cache, kind) && Store(o.cache, kind)[k] == Store(c, kind)[k]
    ensures forall k :: k in Store(c, kind) && k < bound ==> multiset(Store(c, kind)[k]) <= Released(o.traffic)
    ensures o.traffic.retained == multiset{}
  {
    var walk := ReleaseWalk(Store(c, kind), bound, order);
    Outcome(WithStore(c, kind, walk.0), ReleaseAll(multiset(walk.1), force))
  }

  /** A literal release releases nothing from a bucket above the boundary:
      every handle it releases was stored at or below it. */
  lemma ReleaseLiteralOnlyAtMost(c: Cache, kind: Kind, bound: Index, force: bool, order: seq<Index>)
    requires IterationOrder(order, Store(c, kind))
    ensures var o := ReleaseLiteral(c, kind, bound, force, order);
            forall h :: h in Released(o.traffic) ==> exists k :: k in Store(c, kind) && k <= bound && h in Store(c, kind)[k]
  {
    var walk := ReleaseWalk(Store(c, kind), bound, order);
    assert forall h :: h in multiset(walk.1) ==> h in walk.1;
  }

  /** Cleanup as written: every stored handle is released with force, and the
      three maps are left as they were. */
  ghost function CleanupLiteral(c: Cache): (o: Outcome)
    ensures o.cache == c
    ensures o.traffic.forced == Stored(c)
    ensures o.traffic.retained == multiset{} && o.traffic.lazy == multiset{}
  {
    Outcome(c, ReleaseAll(Stored(c), true))
  }

  /** Two successive literal releases with the same boundary, for the
      iteration orders `first` and `second`; the traffic of both. */
  function ReleaseLiteralTwice(c: Cache, kind: Kind, bound: Index, force: bool, first: seq<Index>, second: seq<Index>): (o: Outcome)
    requires IterationOrder(first, Store(c, kind))
    requires IterationOrder(second, Store(ReleaseLiteral(c, kind, bound, force, first).cache, kind))
    ensures o.traffic.retained == multiset{}
    ensures forall k :: k in Store(c, kind) && k < bound ==> multiset(Store(c, kind)[k]) + multiset(Store(c, kind)[k]) <= Released(o.traffic)
  {
    var o1 := ReleaseLiteral(c, kind, bound, force, first);
    var o2 := ReleaseLiteral(o1.cache, kind, bound, force, second);
    Outcome(o2.cache, Then(o1.traffic, o2.traffic))
  }

  /** A bucket strictly below the boundary is released by a literal release and
      left in the map, so the next literal release with the same boundary
      releases it again: a handle the balanced cache stores once ends up
      released more often than it was retained. */
  lemma LiteralReleaseTwiceOverReleases(
    c: Cache, l: Ledger, kind: Kind, bound: Index, force: bool,
    first: seq<Index>, second: seq<Index>, k: Index, h: Handle)
    requires Balanced(c, l) && Stored(c)[h] == 1
    requires IterationOrder(first, Store(c, kind))
    requires IterationOrder(second, Store(ReleaseLiteral(c, kind, bound, force, first).cache, kind))
    requires k in Store(c, kind) && k < bound && h in Store(c, kind)[k]
    ensures var after := Then(l, ReleaseLiteralTwice(c, kind, bound, force, first, second).traffic);
            Released(after)[h] > after.retained[h]
  {
    var t := ReleaseLiteralTwice(c, kind, bound, force, first, second).traffic;
    var bucket := multiset(Store(c, kind)[k]);
    assert bucket[h] >= 1;
    assert Released(t)[h] >= 2 by {
      assert bucket + bucket <= Released(t);
    }
    BalancedCounts(c, l, h);
  }

  /** The pattern of successive confirmations I and I + 1, whose message
      releases have boundaries I - 1 and I: a bucket strictly below the first
      boundary is released by both literal releases, so a handle the balanced
      cache stores once ends up released more often than it was retained. */
  lemma SuccessiveReleasesOverRelease(
    c: Cache, l: Ledger, kind: Kind, b1: Index, b2: Index, force: bool,
    first: seq<Index>, second: seq<Index>, k: Index, h: Handle)
    requires Balanced(c, l) && Stored(c)[h] == 1
    requires IterationOrder(first, Store(c, kind))
    requires IterationOrder(second, Store(ReleaseLiteral(c, kind, b1, force, first).cache, kind))
    requires k in Store(c, kind) && k < b1 <= b2 && h in Store(c, kind)[k]
    ensures var o1 := ReleaseLiteral(c, kind, b1, force, first);
            var o2 := ReleaseLiteral(o1.cache, kind, b2, force, second);
            var after := Then(Then(l, o1.traffic), o2.traffic);
            Released(after)[h] > after.retained[h]
  {
    var o1 := ReleaseLiteral(c, kind, b1, force, first);
    var o2 := ReleaseLiteral(o1.cache, kind, b2, force, second);
    var bucket := multiset(Store(c, kind)[k]);
    assert bucket[h] >= 1;
    assert bucket <= Released(o1.traffic);
    assert k in Store(o1.cache, kind) && Store(o1.cache, kind)[k] == Store(c, kind)[k];
    assert bucket <= Released(o2.traffic);
    BalancedCounts(c, l, h);
  }

  /** The witness for the double release: two message buckets below the
      boundary 5. The first literal release releases both and leaves both in
      the map; the second, whatever its order, releases both again. */
  lemma DoubleReleaseWitness()
    ensures IterationOrder([1, 2], DoubleExample.msgs) && IterationOrder([2, 1], DoubleExample.msgs)
    ensures ReleaseLiteral(DoubleExample, Messages, 5, true, [1, 2]).cache == DoubleExample
    ensures ReleaseLiteral(DoubleExample, Messages, 5, true, [1, 2]).traffic.forced == multiset{Msg(1), Msg(2)}
    ensures ReleaseLiteral(DoubleExample, Messages, 5, true, [2, 1]).cache == DoubleExample
    ensures ReleaseLiteral(DoubleExample, Messages, 5, true, [2, 1]).traffic.forced == multiset{Msg(1), Msg(2)}
  {
    var b := DoubleExample.msgs;
    assert b.Keys == {1, 2} && b[1] == [Msg(1)] && b[2] == [Msg(2)];
    TwoBucketsBelow(DoubleExample, Messages, 5, true, 1, 2);
    TwoBucketsBelow(DoubleExample, Messages, 5, true, 2, 1);
    assert multiset([Msg(1)] + [Msg(2)]) == multiset{Msg(1), Msg(2)};
    assert multiset([Msg(2)] + [Msg(1)]) == multiset{Msg(1), Msg(2)};
  }

  /** Two message buckets below the boundary 5. */
  const DoubleExample := Cache(map[1 := [Msg(1)], 2 := [Msg(2)]], map[], map[], 0)

  /** A literal release over a map of two buckets below a boundary key the map
      does not hold releases both, in range order, and leaves the cache as it
      was. */
  lemma TwoBucketsBelow(c: Cache, kind: Kind, bound: Index, force: bool, k1: Index, k2: Index)
    requires Store(c, kind).Keys == {k1, k2} && k1 != k2 && k1 <= bound && k2 <= bound && bound != k1 && bound != k2
    ensures IterationOrder([k1, k2], Store(c, kind))
    ensures ReleaseLiteral(c, kind, bound, force, [k1, k2])
            == Outcome(c, ReleaseAll(multiset(Store(c, kind)[k1] + Store(c, kind)[k2]), force))
  {
    var b := Store(c, kind);
    WalkPair(b, bound, k1, k2);
    assert WithStore(c, kind, b) == c;
  }

  /** A range over two buckets below a boundary key the map does not hold
      releases both and deletes nothing. */
  lemma WalkPair(b: Buckets, bound: Index, k1: Index, k2: Index)
    requires k1 in b && k2 in b && k1 <= bound && k2 <= bound && bound !in b
    ensures ReleaseWalk(b, bound, [k1, k2]) == (b, b[k1] + b[k2])
  {
    assert b - {bound} == b;
    assert [k1, k2][1..] == [k2] && [k2][1..] == [];
    assert ReleaseWalk(b, bound, [k2]) == (b, b[k2] + []);
    assert b[k2] + [] == b[k2];
  }

  /** When the range reaches a lower bucket before the boundary bucket, the
      lower bucket is released but stays in the map, and the boundary bucket is
      deleted unvisited, its handles neither stored nor released any more.
      Starting from a balanced cache, each handle's net reference count is off
      its stored occurrences by its count in the boundary bucket less its count
      in the lower one. */
  lemma BoundaryBucketNet(c: Cache, l: Ledger, kind: Kind, bound: Index, force: bool, k: Index, h: Handle)
    requires Balanced(c, l)
    requires Store(c, kind).Keys == {k, bound} && k < bound
    ensures IterationOrder([k, bound], Store(c, kind))
    ensures var o := ReleaseLiteral(c, kind, bound, force, [k, bound]);
            Net(Then(l, o.traffic), h)
              == Stored(o.cache)[h] as int + multiset(Store(c, kind)[bound])[h] as int - multiset(Store(c, kind)[k])[h] as int
  {
    LowerFirstStored(c, kind, bound, force, k);
    BalancedCounts(c, l, h);
  }

  /** So the literal release of BoundaryBucketNet loses the balance unless the
      two buckets hold the same handles. */
  lemma BoundaryBucketLeaks(c: Cache, l: Ledger, kind: Kind, bound: Index, force: bool, k: Index)
    requires Balanced(c, l)
    requires Store(c, kind).Keys == {k, bound} && k < bound
    requires multiset(Store(c, kind)[bound]) != multiset(Store(c, kind)[k])
    ensures IterationOrder([k, bound], Store(c, kind))
    ensures var o := ReleaseLiteral(c, kind, bound, force, [k, bound]);
            !Balanced(o.cache, Then(l, o.traffic))
  {
    var b := Store(c, kind);
    var x := Differs(multiset(b[bound]), multiset(b[k]));
    BoundaryBucketNet(c, l, kind, bound, force, k, x);
    var o := ReleaseLiteral(c, kind, bound, force, [k, bound]);
    if Balanced(o.cache, Then(l, o.traffic)) {
      BalancedCounts(o.cache, Then(l, o.traffic), x);
    }
  }

  /** A handle two different multisets count differently. */
  lemma Differs(a: multiset<Handle>, b: multiset<Handle>) returns (x: Handle)
    requires a != b
    ensures a[x] != b[x]
  {
    x :| a[x] != b[x];
  }

  /** The stored handles after the literal release of LowerBucketFirst: all
      but those of the boundary bucket. */
  lemma LowerFirstStored(c: Cache, kind: Kind, bound: Index, force: bool, k: Index)
    requires Store(c, kind).Keys == {k, bound} && k < bound
    ensures IterationOrder([k, bound], Store(c, kind))
    ensures var o := ReleaseLiteral(c, kind, bound, force, [k, bound]);
            && Stored(c) == Stored(o.cache) + multiset(Store(c, kind)[bound])
            && Released(o.traffic) == multiset(Store(c, kind)[k])
            && o.traffic.retained == multiset{}
  {
    var b := Store(c, kind);
    var low := map[k := b[k]];
    LowerBucketFirst(c, kind, bound, force, k);
    var o := ReleaseLiteral(c, kind, bound, force, [k, bound]);
    assert o.cache == WithStore(c, kind, low);
    StoredWith(c, kind, low);
    FlattenTwo(b, k, bound);
    Cancel(Stored(c), Stored(o.cache), multiset(b[bound]), multiset(b[k]), Flatten(b));
  }

  /** The handles of a two-bucket map, and of its lower bucket alone. */
  lemma FlattenTwo(b: Buckets, k: Index, bound: Index)
    requires b.Keys == {k, bound} && k != bound
    ensures Flatten(map[k := b[k]]) == multiset(b[k])
    ensures Flatten(b) == multiset(b[bound]) + multiset(b[k])
  {
    FlattenSingle(k, b[k]);
    FlattenPick(b, bound);
    assert b - {bound} == map[k := b[k]];
  }

  /** A literal release over a map holding the boundary key and one key below
      it, ranged lower key first: the lower bucket is released and the
      boundary bucket deleted without a release. */
  lemma LowerBucketFirst(c: Cache, kind: Kind, bound: Index, force: bool, k: Index)
    requires Store(c, kind).Keys == {k, bound} && k < bound
    ensures IterationOrder([k, bound], Store(c, kind))
    ensures ReleaseLiteral(c, kind, bound, force, [k, bound])
            == Outcome(WithStore(c, kind, map[k := Store(c, kind)[k]]), ReleaseAll(multiset(Store(c, kind)[k]), force))
  {
    var b: Buckets := Store(c, kind);
    var left: Buckets := b - {bound};
    assert left == map[k := b[k]];
    assert [k, bound][1..] == [bound] && [bound][1..] == [];
    assert ReleaseWalk(left, bound, []) == (left, []);
    assert ReleaseWalk(left, bound, [bound]) == (left, []);
    assert ReleaseWalk(b, bound, [k, bound]) == (left, b[k] + []);
    assert b[k] + [] == b[k];
  }

  /** Cleanup as written leaves the released handles in the maps: a balanced,
      non-empty cache is unbalanced afterwards, and a second Cleanup releases a
      stored handle more often than it was retained. */
  lemma CleanupLiteralTwiceOverReleases(c: Cache, l: Ledger, h: Handle)
    requires Balanced(c, l) && h in Stored(c)
    ensures !Balanced(CleanupLiteral(c).cache, Then(l, CleanupLiteral(c).traffic))
    ensures var o1 := CleanupLiteral(c);
            var o2 := CleanupLiteral(o1.cache);
            var after := Then(Then(l, o1.traffic), o2.traffic);
            Released(after)[h] > after.retained[h]
  {
    BalancedCounts(c, l, h);
    var after1 := Then(l, CleanupLiteral(c).traffic);
    assert Released(after1)[h] == Released(l)[h] + Stored(c)[h];
  }
}

=== FILE: plugin.dfy ===
/**
 The TangleCache plugin: the window policy that turns event notifications into
 calls on the retention cache, and the node lifecycle that attaches those
 handlers at start and detaches them before the final Cleanup.

 Each notification is delivered whole, as one step; the locking and the
 multi-threaded event delivery of the node are not modelled.
 */
module TangleCachePlugin {
  import opened Refs
  import opened Buckets
  import opened TangleCache

  /** The notifications the plugin subscribes to. `meta` of a cached message is
      the metadata handle the handler fetches for it (GetCachedMetadata). */
  datatype Notification =
    | MessageCached(index: Index, msg: Handle, meta: Handle, children: seq<Handle>)
    | MetadataReferenced(index: Index, meta: Handle)
    | ConfirmedMilestoneIndexChanged(index: Index)

  /** A notification the node can deliver. Its handles have the types the
      event parameters declare: a cached message, the cached metadata of that
      message, and cached child edges. A confirmed milestone has index at least
      1, so that the message window boundary `index - 1` is a milestone index. */
  predicate Deliverable(n: Notification)
  {
    match n
    case MessageCached(_, msg, meta, children) =>
      msg.Msg? && meta.Meta? && meta.msgId == msg.msgId && forall e :: e in children ==> e.Edge?
    case MetadataReferenced(_, meta) => meta.Meta?
    case ConfirmedMilestoneIndexChanged(i) => i >= 1
  }

  /** The references a handler receives with its notification: the event
      callers retain the message, each child edge and the referenced metadata,
      and GetCachedMetadata returns a retained metadata handle. */
  function Dispatch(n: Notification): (l: Ledger)
    ensures Released(l) == multiset{}
    ensures l.retained == multiset{} <==> n.ConfirmedMilestoneIndexChanged?
    ensures n.MessageCached? ==> l.retained == multiset{n.msg, n.meta} + multiset(n.children)
    ensures n.MetadataReferenced? ==> l.retained == multiset{n.meta}
  {
    match n
    case MessageCached(_, msg, meta, children) => RetainAll(multiset{msg, meta} + multiset(children))
    case MetadataReferenced(_, meta) => RetainAll(multiset{meta})
    case ConfirmedMilestoneIndexChanged(_) => Quiet
  }

  /** The handler of a newly stored or solid message: the message, its metadata
      and its child edges are added under the message's milestone index, in
      that order. The traffic starts with the references dispatched with it. */
  function OnMessageCached(c: Cache, i: Index, msg: Handle, meta: Handle, children: seq<Handle>): (o: Outcome)
    ensures o.cache.minIndex == c.minIndex
    ensures o.traffic.forced == multiset{msg, meta} + multiset(children) && o.traffic.lazy == multiset{}
    ensures o.traffic.retained
            == if i < c.minIndex then o.traffic.forced else o.traffic.forced + o.traffic.forced
  {
    var o1 := Add(c, Messages, i, [msg]);
    var o2 := Add(o1.cache, Metadata, i, [meta]);
    var o3 := Add(o2.cache, Children, i, children);
    assert multiset{msg, meta} + multiset(children) == multiset([msg]) + multiset([meta]) + multiset(children);
    HandlerTraffic(Dispatch(MessageCached(i, msg, meta, children)), o1.traffic, o2.traffic, o3.traffic,
                   multiset([msg]), multiset([meta]), multiset(children), i < c.minIndex);
    Outcome(o3.cache, Then(Dispatch(MessageCached(i, msg, meta, children)), Then(o1.traffic, Then(o2.traffic, o3.traffic))))
  }

  /** The traffic of a handler that receives the references `x + y + z` and
      hands `x`, `y` and `z` to three adds, all refused or all admitted: each
      dispatched reference is released once, and, when admitted, retained once
      more by the cache. */
  lemma HandlerTraffic(
    d: Ledger, t1: Ledger, t2: Ledger, t3: Ledger,
    x: multiset<Handle>, y: multiset<Handle>, z: multiset<Handle>, refused: bool)
    requires d == RetainAll(x + y + z)
    requires t1.forced == x && t1.lazy == multiset{} && t1.retained == (if refused then multiset{} else x)
    requires t2.forced == y && t2.lazy == multiset{} && t2.retained == (if refused then multiset{} else y)
    requires t3.forced == z && t3.lazy == multiset{} && t3.retained == (if refused then multiset{} else z)
    ensures var t := Then(d, Then(t1, Then(t2, t3)));
            && t.forced == x + y + z && t.lazy == multiset{}
            && t.retained == (if refused then t.forced else t.forced + t.forced)
  {
    var t := Then(d, Then(t1, Then(t2, t3)));
    assert t.forced == multiset{} + (x + (y + z));
    assert t.retained == (x + y + z) + (t1.retained + (t2.retained + t3.retained));
  }

  /** The handler of a referenced message's metadata: one metadata add. */
  function OnMetadataReferenced(c: Cache, i: Index, meta: Handle): (o: Outcome)
    ensures o.cache.minIndex == c.minIndex
    ensures o.traffic.forced == multiset{meta} && o.traffic.lazy == multiset{}
    ensures o.traffic.retained == if i < c.minIndex then multiset{meta} else multiset{meta, meta}
  {
    var o := Add(c, Metadata, i, [meta]);
    Outcome(o.cache, Then(Dispatch(MetadataReferenced(i, meta)), o.traffic))
  }

  /** The handler of a confirmed milestone `i`, `depth` being the configured
      below-max-depth: the watermark first, then the message release up to
      `i - 1`, then, once `i` has reached the depth, the metadata and child-edge
      releases up to `i - depth`. Every release is forced. */
  ghost function OnConfirmedMilestone(c: Cache, i: Index, depth: nat): (o: Outcome)
    requires i >= 1
    ensures o.cache.minIndex == i
    ensures o.traffic.retained == multiset{} && o.traffic.lazy == multiset{}
    ensures forall k :: k in o.cache.msgs <==> k in c.msgs && k >= i
    ensures i < depth ==> o.cache.metas == c.metas && o.cache.children == c.children
    ensures i >= depth ==>
      && (forall k :: k in o.cache.metas <==> k in c.metas && k > i - depth)
      && (forall k :: k in o.cache.children <==> k in c.children && k > i - depth)
  {
    var o1 := SetMinIndex(c, i);
    var o2 := Release(o1.cache, Messages, i - 1, true);
    if i < depth then
      Outcome(o2.cache, Then(o1.traffic, o2.traffic))
    else
      var o3 := Release(o2.cache, Metadata, i - depth, true);
      var o4 := Release(o3.cache, Children, i - depth, true);
      Outcome(o4.cache, Then(o1.traffic, Then(o2.traffic, Then(o3.traffic, o4.traffic))))
  }

  /** One notification handled by the handler configureEvents attaches for it. */
  ghost function Notify(c: Cache, n: Notification, depth: nat): (o: Outcome)
    requires Deliverable(n)
    ensures n.ConfirmedMilestoneIndexChanged? ==> o.cache.minIndex == n.index
    ensures !n.ConfirmedMilestoneIndexChanged? ==> o.cache.minIndex == c.minIndex
  {
    match n
    case MessageCached(i, msg, meta, children) => OnMessageCached(c, i, msg, meta, children)
    case MetadataReferenced(i, meta) => OnMetadataReferenced(c, i, meta)
    case ConfirmedMilestoneIndexChanged(i) => OnConfirmedMilestone(c, i, depth)
  }

  lemma ThenAssociative(a: Ledger, b: Ledger, d: Ledger)
    ensures Then(Then(a, b), d) == Then(a, Then(b, d))
  {
  }

  /** Four pieces of traffic appended one by one to `l` make the traffic of the
      four appended to `l` at once. */
  lemma ThenRegroup(l: Ledger, a: Ledger, b: Ledger, d: Ledger, e: Ledger)
    ensures Then(Then(Then(Then(l, a), b), d), e) == Then(l, Then(a, Then(b, Then(d, e))))
  {
    ThenAssociative(l, a, b);
    ThenAssociative(Then(l, a), b, d);
    ThenAssociative(l, Then(a, b), d);
    ThenAssociative(a, b, d);
    ThenAssociative(Then(Then(l, a), b), d, e);
    ThenAssociative(Then(l, Then(Then(a, b), d)), e, Quiet);
    assert Then(Then(Then(l, a), b), d) == Then(l, Then(a, Then(b, d)));
    ThenAssociative(l, Then(a, Then(b, d)), e);
    ThenAssociative(a, Then(b, d), e);
    ThenAssociative(b, d, e);
  }

  lemma ThenQuiet(l: Ledger)
    ensures Then(l, Quiet) == l
  {
  }

  /** The message handler consumes exactly the references dispatched with it. */
  lemma MessageKeepsBalance(c: Cache, l: Ledger, i: Index, msg: Handle, meta: Handle, children: seq<Handle>)
    requires Balanced(c, l)
    ensures var r := OnMessageCached(c, i, msg, meta, children);
            Balanced(r.cache, Then(l, r.traffic))
  {
    var d := Dispatch(MessageCached(i, msg, meta, children));
    var l0 := Then(l, d);
    Lend(c, l, d);
    MessageLent(msg, meta, children);
    var o1 := Add(c, Messages, i, [msg]);
    AddAccounts(c, Messages, i, [msg], l0, d.retained);
    var l1 := Then(l0, o1.traffic);
    var o2 := Add(o1.cache, Metadata, i, [meta]);
    AddAccounts(o1.cache, Metadata, i, [meta], l1, d.retained - multiset([msg]));
    var l2 := Then(l1, o2.traffic);
    var o3 := Add(o2.cache, Children, i, children);
    AddAccounts(o2.cache, Children, i, children, l2, multiset(children));
    ThenRegroup(l, d, o1.traffic, o2.traffic, o3.traffic);
  }

  /** The references dispatched with a cached message, used up by its three
      adds one after the other. */
  lemma MessageLent(msg: Handle, meta: Handle, children: seq<Handle>)
    ensures var lent := multiset{msg, meta} + multiset(children);
            && multiset([msg]) <= lent
            && lent - multiset([msg]) == multiset{meta} + multiset(children)
            && multiset([meta]) <= multiset{meta} + multiset(children)
            && (multiset{meta} + multiset(children)) - multiset([meta]) == multiset(children)
            && multiset(children) - multiset(children) == multiset{}
  {
  }

  /** The metadata handler consumes exactly the reference dispatched with it. */
  lemma MetadataKeepsBalance(c: Cache, l: Ledger, i: Index, meta: Handle)
    requires Balanced(c, l)
    ensures var r := OnMetadataReferenced(c, i, meta);
            Balanced(r.cache, Then(l, r.traffic))
  {
    var d := Dispatch(MetadataReferenced(i, meta));
    var l0 := Then(l, d);
    assert Accounts(c, l0, multiset{meta});
    AddAccounts(c, Metadata, i, [meta], l0, multiset{meta});
    ThenAssociative(l, d, Add(c, Metadata, i, [meta]).traffic);
  }

  /** The confirmation handler only releases what it removes. */
  lemma ConfirmedKeepsBalance(c: Cache, l: Ledger, i: Index, depth: nat)
    requires i >= 1 && Balanced(c, l)
    ensures var r := OnConfirmedMilestone(c, i, depth);
            Balanced(r.cache, Then(l, r.traffic))
  {
    var o1 := SetMinIndex(c, i);
    ThenQuiet(l);
    var l1 := Then(l, o1.traffic);
    var o2 := Release(o1.cache, Messages, i - 1, true);
    ReleaseAccounts(o1.cache, Messages, i - 1, true, l1, multiset{});
    var l2 := Then(l1, o2.traffic);
    if i >= depth {
      var o3 := Release(o2.cache, Metadata, i - depth, true);
      ReleaseAccounts(o2.cache, Metadata, i - depth, true, l2, multiset{});
      var l3 := Then(l2, o3.traffic);
      var o4 := Release(o3.cache, Children, i - depth, true);
      ReleaseAccounts(o3.cache, Children, i - depth, true, l3, multiset{});
      ThenRegroup(l, o1.traffic, o2.traffic, o3.traffic, o4.traffic);
    } else {
      ThenAssociative(l, o1.traffic, o2.traffic);
    }
  }

  /** Every notification keeps the cache balanced: each handle's net reference
      count stays its number of stored occurrences. */
  lemma NotifyKeepsBalance(c: Cache, l: Ledger, n: Notification, depth: nat)
    requires Deliverable(n) && Balanced(c, l)
    ensures Balanced(Notify(c, n, depth).cache, Then(l, Notify(c, n, depth).traffic))
  {
    match n
    case MessageCached(i, msg, meta, children) =>
      MessageKeepsBalance(c, l, i, msg, meta, children);
    case MetadataReferenced(i, meta) =>
      MetadataKeepsBalance(c, l, i, meta);
    case ConfirmedMilestoneIndexChanged(i) =>
      ConfirmedKeepsBalance(c, l, i, depth);
  }

  /** A confirmation of `i`: the watermark becomes `i`; message buckets at or
      below `i - 1` are released with force and removed while bucket `i` and
      above stay; metadata and child-edge buckets at or below `i - depth` go
      the same way when `i >= depth`, and are untouched otherwise. */
  lemma OnConfirmed(c: Cache, i: Index, depth: nat)
    requires i >= 1
    ensures var r := OnConfirmedMilestone(c, i, depth);
            && r.cache.minIndex == i
            && r.cache.msgs == Above(c.msgs, i - 1)
            && (i < depth ==> r.cache.metas == c.metas && r.cache.children == c.children)
            && (i >= depth ==> r.cache.metas == Above(c.metas, i - depth) && r.cache.children == Above(c.children, i - depth))
            && r.traffic.retained == multiset{} && r.traffic.lazy == multiset{}
            && r.traffic.forced == Flatten(AtMost(c.msgs, i - 1))
                 + (if i < depth then multiset{}
                    else Flatten(AtMost(c.metas, i - depth)) + Flatten(AtMost(c.children, i - depth)))
  {
    var o1 := SetMinIndex(c, i);
    var o2 := Release(o1.cache, Messages, i - 1, true);
    if i >= depth {
      var o3 := Release(o2.cache, Metadata, i - depth, true);
      var o4 := Release(o3.cache, Children, i - depth, true);
      assert Released(o4.traffic) == o4.traffic.forced;
    }
  }

  /** The confirmation handler raises the watermark before it releases, so once
      it has run an add for an index below the confirmed one, of any kind, is
      refused: nothing is filed and the borrowed references are only given back. */
  lemma LateAddRefused(c: Cache, i: Index, depth: nat, kind: Kind, j: Index, hs: seq<Handle>)
    requires i >= 1 && j < i
    ensures var r := OnConfirmedMilestone(c, i, depth).cache;
            var o := Add(r, kind, j, hs);
            o.cache == r && o.traffic.retained == multiset{} && Released(o.traffic) == multiset(hs)
  {
    OnConfirmed(c, i, depth);
  }

  /** With depth at least 1 the message boundary `i - 1` is not below the
      metadata boundary `i - depth`: a confirmation never removes a metadata
      or child-edge bucket whose message bucket it keeps. */
  lemma MessagesNotKeptLongerThanMetadata(c: Cache, i: Index, depth: nat, k: Index)
    requires i >= 1 && depth >= 1
    requires k in c.metas || k in c.children
    ensures var r := OnConfirmedMilestone(c, i, depth).cache;
            (k in c.metas && k !in r.metas) || (k in c.children && k !in r.children) ==> k !in r.msgs
  {
    OnConfirmed(c, i, depth);
  }

  /** With depth 5, confirming 12 removes the metadata buckets 0 to 7 and keeps
      those from 8 on; confirming 3 removes none. */
  lemma WindowExample(c: Cache)
    ensures var r := OnConfirmedMilestone(c, 12, 5).cache;
            forall k :: k in r.metas <==> k in c.metas && k >= 8
    ensures OnConfirmedMilestone(c, 3, 5).cache.metas == c.metas
  {
    OnConfirmed(c, 12, 5);
    OnConfirmed(c, 3, 5);
  }

  /** A confirmation moves the watermark to its index, whatever it was, and no
      other notification moves it: the watermark only grows when confirmations
      arrive in increasing order. */
  lemma WatermarkFollowsConfirmations(c: Cache, n: Notification, depth: nat)
    requires Deliverable(n)
    ensures var r := Notify(c, n, depth).cache;
            && (n.ConfirmedMilestoneIndexChanged? ==> r.minIndex == n.index)
            && (!n.ConfirmedMilestoneIndexChanged? ==> r.minIndex == c.minIndex)
            && (r.minIndex >= c.minIndex <==> !n.ConfirmedMilestoneIndexChanged? || n.index >= c.minIndex)
  {
    match n
    case ConfirmedMilestoneIndexChanged(i) =>
      OnConfirmed(c, i, depth);
    case MessageCached(i, msg, meta, children) =>
    case MetadataReferenced(i, meta) =>
  }

  /** A cached message at or above the watermark files the message, its
      metadata and its child edges under the same index, at the end of each
      bucket, and leaves the watermark alone. */
  lemma MessageFiledTogether(c: Cache, i: Index, msg: Handle, meta: Handle, children: seq<Handle>)
    requires i >= c.minIndex
    ensures var r := OnMessageCached(c, i, msg, meta, children).cache;
            && r.minIndex == c.minIndex
            && Bucket(r.msgs, i) == Bucket(c.msgs, i) + [msg]
            && Bucket(r.metas, i) == Bucket(c.metas, i) + [meta]
            && Bucket(r.children, i) == Bucket(c.children, i) + children
            && r.msgs.Keys == c.msgs.Keys + {i}
            && r.metas.Keys == c.metas.Keys + {i}
            && r.children.Keys == c.children.Keys + {i}
            && (forall k :: k != i && k in c.msgs ==> r.msgs[k] == c.msgs[k])
            && (forall k :: k != i && k in c.metas ==> r.metas[k] == c.metas[k])
            && (forall k :: k != i && k in c.children ==> r.children[k] == c.children[k])
  {
    MessageMaps(c, i, msg, meta, children);
  }

  /** An admitted add files its handles and keeps the watermark. */
  lemma AddFiled(c: Cache, kind: Kind, i: Index, hs: seq<Handle>)
    requires i >= c.minIndex
    ensures Add(c, kind, i, hs).cache.minIndex == c.minIndex
    ensures forall k :: Store(Add(c, kind, i, hs).cache, k)
                        == if k == kind then Append(Store(c, kind), i, hs) else Store(c, k)
  {
  }

  /** The three maps after an admitted cached message, as appends. */
  lemma MessageMaps(c: Cache, i: Index, msg: Handle, meta: Handle, children: seq<Handle>)
    requires i >= c.minIndex
    ensures var r := OnMessageCached(c, i, msg, meta, children).cache;
            && r.minIndex == c.minIndex
            && r.msgs == Append(c.msgs, i, [msg])
            && r.metas == Append(c.metas, i, [meta])
            && r.children == Append(c.children, i, children)
  {
    var o1 := Add(c, Messages, i, [msg]);
    var o2 := Add(o1.cache, Metadata, i, [meta]);
    var o3 := Add(o2.cache, Children, i, children);
    AddFiled(c, Messages, i, [msg]);
    AddFiled(o1.cache, Metadata, i, [meta]);
    AddFiled(o2.cache, Children, i, children);
    assert OnMessageCached(c, i, msg, meta, children).cache == o3.cache;
  }

  /** A cached message below the watermark changes no bucket, and every
      reference dispatched with it is given back. */
  lemma MessageBelowWatermark(c: Cache, i: Index, msg: Handle, meta: Handle, children: seq<Handle>, h: Handle)
    requires i < c.minIndex
    ensures var r := OnMessageCached(c, i, msg, meta, children);
            r.cache == c && Net(r.traffic, h) == 0
  {
    var o1 := Add(c, Messages, i, [msg]);
    var o2 := Add(o1.cache, Metadata, i, [meta]);
    var o3 := Add(o2.cache, Children, i, children);
    AddNet(c, Messages, i, [msg], h);
    AddNet(o1.cache, Metadata, i, [meta], h);
    AddNet(o2.cache, Children, i, children, h);
    var d := Dispatch(MessageCached(i, msg, meta, children));
    assert Net(d, h) == (multiset{msg, meta} + multiset(children))[h] as int;
  }

  /** The metadata of a message referenced twice at or above the watermark is
      filed twice under the index, and the cache takes one reference per
      filing. */
  lemma MetadataFiledTwice(c: Cache, i: Index, meta: Handle)
    requires i >= c.minIndex
    ensures var r1 := OnMetadataReferenced(c, i, meta);
            var r2 := OnMetadataReferenced(r1.cache, i, meta);
            && Bucket(r2.cache.metas, i) == Bucket(c.metas, i) + [meta, meta]
            && Net(Then(r1.traffic, r2.traffic), meta) == 2
  {
    var r1 := OnMetadataReferenced(c, i, meta);
    var r2 := OnMetadataReferenced(r1.cache, i, meta);
    assert r1.traffic.retained == multiset{meta, meta} && r1.traffic.forced == multiset{meta};
    assert r2.traffic.retained == multiset{meta, meta} && r2.traffic.forced == multiset{meta};
    assert r1.cache.metas == Store(Add(c, Metadata, i, [meta]).cache, Metadata);
    assert r2.cache.metas == Store(Add(r1.cache, Metadata, i, [meta]).cache, Metadata);
    assert Bucket(r2.cache.metas, i) == Bucket(c.metas, i) + [meta] + [meta];
  }

  /** A confirmation that moves the metadata window past index `i` removes the
      metadata bucket `i` and releases every occurrence it held. */
  lemma ConfirmedReleasesBucket(c: Cache, i: Index, depth: nat, confirmed: Index, h: Handle)
    requires confirmed >= 1 && confirmed >= depth && i <= confirmed - depth
    ensures var r := OnConfirmedMilestone(c, confirmed, depth);
            && i !in r.cache.metas
            && Released(r.traffic)[h] >= multiset(Bucket(c.metas, i))[h]
  {
    OnConfirmed(c, confirmed, depth);
    if i in c.metas {
      var below := AtMost(c.metas, confirmed - depth);
      assert i in below;
      FlattenPick(below, i);
    }
  }

  /** The metadata of a message referenced twice is filed twice under the
      index, gains one cache reference per filing, and a later confirmation
      that moves the metadata window past the index releases both. */
  lemma MetadataReferencedTwice(c: Cache, i: Index, meta: Handle, depth: nat, confirmed: Index)
    requires i >= c.minIndex
    requires confirmed >= 1 && confirmed >= depth && i <= confirmed - depth
    ensures var r1 := OnMetadataReferenced(c, i, meta);
            var r2 := OnMetadataReferenced(r1.cache, i, meta);
            var r3 := OnConfirmedMilestone(r2.cache, confirmed, depth);
            && Net(Then(r1.traffic, r2.traffic), meta) == 2
            && i !in r3.cache.metas
            && Released(r3.traffic)[meta] >= 2
  {
    var r2 := OnMetadataReferenced(OnMetadataReferenced(c, i, meta).cache, i, meta);
    MetadataFiledTwice(c, i, meta);
    ConfirmedReleasesBucket(r2.cache, i, depth, confirmed, meta);
    assert multiset(Bucket(r2.cache.metas, i))[meta] >= 2 by {
      assert Bucket(r2.cache.metas, i) == Bucket(c.metas, i) + [meta, meta];
    }
  }

  /** The event sources the plugin attaches to. */
  datatype Source = RequestedAndStored | MessageSolid | MetadataReferencedEvent | ConfirmedIndexChanged

  const AllSources: set<Source> := {RequestedAndStored, MessageSolid, MetadataReferencedEvent, ConfirmedIndexChanged}

  lemma AllSourcesComplete(src: Source)
    ensures src in AllSources
  {
    match src
    case RequestedAndStored =>
    case MessageSolid =>
    case MetadataReferencedEvent =>
    case ConfirmedIndexChanged =>
  }

  /** The notification each source delivers. */
  predicate Carries(src: Source, n: Notification)
  {
    && Deliverable(n)
    && match src
       case RequestedAndStored => n.MessageCached?
       case MessageSolid => n.MessageCached?
       case MetadataReferencedEvent => n.MetadataReferenced?
       case ConfirmedIndexChanged => n.ConfirmedMilestoneIndexChanged?
  }

  /** The plugin state: its cache, the sources its handlers are attached to, and
      all reference traffic so far. */
  datatype Node = Node(cache: Cache, attached: set<Source>, traffic: Ledger)

  /** configure: a new cache, no handler attached yet. */
  function Configure(): (node: Node)
    ensures node.attached == {} && Stored(node.cache) == multiset{}
    ensures node.cache.minIndex == 0
    ensures node.cache.msgs == map[] && node.cache.metas == map[] && node.cache.children == map[]
    ensures node.traffic == Quiet
    ensures Balanced(node.cache, node.traffic)
  {
    Node(New(), {}, Quiet)
  }

  /** The start of the background worker: all four handlers attached. */
  function Start(node: Node): (r: Node)
    ensures forall src :: src in r.attached
    ensures r.cache == node.cache && r.traffic == node.traffic
  {
    assert forall src :: src in AllSources by {
      forall src: Source
        ensures src in AllSources
      {
        AllSourcesComplete(src);
      }
    }
    node.(attached := AllSources)
  }

  /** `src` fires `n`: handled when its handler is attached, ignored otherwise. */
  ghost function Deliver(node: Node, src: Source, n: Notification, depth: nat): (r: Node)
    requires Carries(src, n)
    ensures r.attached == node.attached
    ensures src !in node.attached ==> r == node
    ensures Balanced(node.cache, node.traffic) ==> Balanced(r.cache, r.traffic)
  {
    if src in node.attached then
      var o := Notify(node.cache, n, depth);
      NotifyBalanced(node.cache, node.traffic, n, depth);
      Node(o.cache, node.attached, Then(node.traffic, o.traffic))
    else node
  }

  lemma NotifyBalanced(c: Cache, l: Ledger, n: Notification, depth: nat)
    requires Deliverable(n)
    ensures Balanced(c, l) ==> Balanced(Notify(c, n, depth).cache, Then(l, Notify(c, n, depth).traffic))
  {
    if Balanced(c, l) {
      NotifyKeepsBalance(c, l, n, depth);
    }
  }

  /** The end of the background worker: every handler detached, then Cleanup. */
  ghost function Shutdown(node: Node): (r: Node)
    ensures r.attached == {}
    ensures forall kind :: Store(r.cache, kind) == map[]
    ensures r.traffic.retained == node.traffic.retained
    ensures r.traffic.forced == node.traffic.forced + Stored(node.cache) && r.traffic.lazy == node.traffic.lazy
    ensures Released(r.traffic) == Released(node.traffic) + Stored(node.cache)
  {
    var detached := node.(attached := {});
    var o := Cleanup(detached.cache);
    Node(o.cache, detached.attached, Then(detached.traffic, o.traffic))
  }

  datatype Delivery = Delivery(source: Source, note: Notification)

  /** The deliveries `ds`, one after the other. */
  ghost function DeliverAll(node: Node, ds: seq<Delivery>, depth: nat): (r: Node)
    requires forall j :: 0 <= j < |ds| ==> Carries(ds[j].source, ds[j].note)
    ensures r.attached == node.attached
    ensures node.attached == {} ==> r == node
    decreases |ds|
  {
    if ds == [] then node
    else DeliverAll(Deliver(node, ds[0].source, ds[0].note, depth), ds[1..], depth)
  }

  /** Any run of notifications keeps the cache balanced. */
  lemma {:induction false} DeliverAllKeepsBalance(node: Node, ds: seq<Delivery>, depth: nat)
    requires forall j :: 0 <= j < |ds| ==> Carries(ds[j].source, ds[j].note)
    requires Balanced(node.cache, node.traffic)
    ensures Balanced(DeliverAll(node, ds, depth).cache, DeliverAll(node, ds, depth).traffic)
    decreases |ds|
  {
    if ds != [] {
      var d := ds[0];
      if d.source in node.attached {
        NotifyKeepsBalance(node.cache, node.traffic, d.note, depth);
      }
      DeliverAllKeepsBalance(Deliver(node, d.source, d.note, depth), ds[1..], depth);
    }
  }

  /** Over the plugin's whole life, whatever notifications arrive, shutdown
      leaves every handler detached and the cache empty, and every reference
      the plugin took given back exactly once: no leak, no double release. */
  lemma LifetimeSettles(ds: seq<Delivery>, depth: nat, h: Handle)
    requires forall j :: 0 <= j < |ds| ==> Carries(ds[j].source, ds[j].note)
    ensures var end := Shutdown(DeliverAll(Start(Configure()), ds, depth));
            && end.attached == {}
            && (forall kind :: Store(end.cache, kind) == map[])
            && Net(end.traffic, h) == 0
  {
    var live := DeliverAll(Start(Configure()), ds, depth);
    DeliverAllKeepsBalance(Start(Configure()), ds, depth);
    CleanupSettles(live.cache, live.traffic, h);
  }

  /** After shutdown every handler is detached, so a late notification changes
      nothing and pins nothing. */
  lemma LateNotificationIgnored(node: Node, src: Source, n: Notification, depth: nat)
    requires Carries(src, n)
    ensures Deliver(Shutdown(node), src, n, depth) == Shutdown(node)
    ensures Stored(Deliver(Shutdown(node), src, n, depth).cache) == multiset{}
  {
  }

  /** Were Cleanup run while the message handler is still attached, a late
      message at or above the watermark would be filed after the drain and
      stay pinned with no release to come. */
  lemma CleanupBeforeDetachPins(node: Node, i: Index, msg: Handle, meta: Handle, depth: nat)
    requires RequestedAndStored in node.attached && i >= node.cache.minIndex
    requires msg.Msg? && meta.Meta? && meta.msgId == msg.msgId
    ensures var drained := Cleanup(node.cache).cache;
            var late := Deliver(node.(cache := drained), RequestedAndStored, MessageCached(i, msg, meta, []), depth);
            msg in Stored(late.cache)
  {
    var drained := Cleanup(node.cache).cache;
    var n := MessageCached(i, msg, meta, []);
    assert Deliver(node.(cache := drained), RequestedAndStored, n, depth).cache
           == OnMessageCached(drained, i, msg, meta, []).cache;
    MessageStored(drained, i, msg, meta);
  }

  /** A message admitted on an emptied cache is stored. */
  lemma MessageStored(c: Cache, i: Index, msg: Handle, meta: Handle)
    requires i >= c.minIndex && c.msgs == map[]
    ensures msg in Stored(OnMessageCached(c, i, msg, meta, []).cache)
  {
    var r := OnMessageCached(c, i, msg, meta, []).cache;
    MessageMaps(c, i, msg, meta, []);
    assert r.msgs[i] == [msg];
    FlattenPick(r.msgs, i);
    assert msg in Flatten(r.msgs);
  }
}

=== FILE: refs.dfy ===
/**
 The reference-counted handles of the shared object cache, as far as the
 retention cache sees them: which object a handle points at, and the Retain /
 Release traffic an operation sends to the object cache.

 The object cache itself (its counters, its lazy or forced eviction) is not
 modelled; what is recorded is how many references each operation takes and
 gives back, and whether a release was forced.
 */
module Refs {

  /** The object a retained handle points at. Two handles to the same object
      share one reference count in the object cache. */
  datatype Handle =
    | Msg(msgId: nat)
    | Meta(msgId: nat)
    | Edge(parentId: nat, childId: nat)

  /** The Retain and Release calls issued on the object cache, with multiplicity.
      Releases are split by their force flag, which is recorded but has no
      meaning here. */
  datatype Ledger = Ledger(retained: multiset<Handle>, forced: multiset<Handle>, lazy: multiset<Handle>)

  /** Every release, forced or not. */
  function Released(l: Ledger): multiset<Handle>
  {
    l.forced + l.lazy
  }

  /** The change a ledger makes to the reference count of `h`. */
  function Net(l: Ledger, h: Handle): int
  {
    l.retained[h] as int - Released(l)[h] as int
  }

  /** No traffic at all. */
  const Quiet := Ledger(multiset{}, multiset{}, multiset{})

  /** The traffic of `a` followed by that of `b`. */
  function Then(a: Ledger, b: Ledger): (l: Ledger)
    ensures forall h :: Net(l, h) == Net(a, h) + Net(b, h)
  {
    Ledger(a.retained + b.retained, a.forced + b.forced, a.lazy + b.lazy)
  }

  /** One Retain per handle of `hs`. */
  function RetainAll(hs: multiset<Handle>): Ledger
  {
    Ledger(hs, multiset{}, multiset{})
  }

  /** One Release(force) per handle of `hs`. */
  function ReleaseAll(hs: multiset<Handle>, force: bool): (l: Ledger)
    ensures Released(l) == hs && l.retained == multiset{}
    ensures force ==> l.lazy == multiset{}
    ensures !force ==> l.forced == multiset{}
  {
    if force then Ledger(multiset{}, hs, multiset{}) else Ledger(multiset{}, multiset{}, hs)
  }
}

=== FILE: tangle_cache.dfy ===
/**
 The retention cache (TangleCache): three index-keyed bucket maps of retained
 handles (messages, metadata, child edges) and a watermark below which adds
 are refused.

 Each operation is one atomic step on an immutable cache value (the source
 serialises them with one lock) and returns the Retain / Release traffic it
 sends to the object cache. The release operations here are the intended ones:
 every qualifying bucket is removed in the step that releases it. The
 operations as the source writes them are in module LiteralCache.
 */
module TangleCache {
  import opened Refs
  import opened Buckets

  /** The three categories of pinned objects, one bucket map each. */
  datatype Kind = Messages | Metadata | Children

  datatype Cache = Cache(msgs: Buckets, metas: Buckets, children: Buckets, minIndex: Index)

  /** The cache after an operation, and the reference traffic the operation issued. */
  datatype Outcome = Outcome(cache: Cache, traffic: Ledger)

  function Store(c: Cache, kind: Kind): Buckets
  {
    match kind
    case Messages => c.msgs
    case Metadata => c.metas
    case Children => c.children
  }

  function WithStore(c: Cache, kind: Kind, b: Buckets): (r: Cache)
    ensures Store(r, kind) == b && r.minIndex == c.minIndex
    ensures forall k :: k != kind ==> Store(r, k) == Store(c, k)
  {
    match kind
    case Messages => c.(msgs := b)
    case Metadata => c.(metas := b)
    case Children => c.(children := b)
  }

  /** Every handle the cache holds, in all three maps, once per occurrence. */
  ghost function Stored(c: Cache): multiset<Handle>
  {
    Flatten(c.msgs) + Flatten(c.metas) + Flatten(c.children)
  }

  /** Replacing one map changes the stored handles by that map's difference. */
  lemma StoredWith(c: Cache, kind: Kind, b: Buckets)
    ensures Stored(WithStore(c, kind, b)) + Flatten(Store(c, kind)) == Stored(c) + Flatten(b)
  {
  }

  /** The reference accounting of the cache: every reference ever retained has
      been released, is held by the cache (one per stored occurrence), or is
      still lent to an event handler that has not handed it to the cache yet. */
  ghost predicate Accounts(c: Cache, l: Ledger, lent: multiset<Handle>)
  {
    l.retained == Released(l) + Stored(c) + lent
  }

  /** The cache owns, for every handle, exactly as many references as the handle
      has occurrences in its buckets: nothing leaked, nothing released twice. */
  ghost predicate Balanced(c: Cache, l: Ledger)
  {
    Accounts(c, l, multiset{})
  }

  /** NewTangleCache: no buckets, watermark 0. */
  function New(): (c: Cache)
    ensures forall kind :: Store(c, kind) == map[]
    ensures c.minIndex == 0
    ensures Stored(c) == multiset{}
    ensures Balanced(c, Quiet)
  {
    Cache(map[], map[], map[], 0)
  }

  /** SetMinMilestoneIndex: the watermark becomes `i`, lower or higher than
      before; no bucket and no reference count is touched. */
  function SetMinIndex(c: Cache, i: Index): (o: Outcome)
    ensures o.cache.minIndex == i
    ensures forall kind :: Store(o.cache, kind) == Store(c, kind)
    ensures Stored(o.cache) == Stored(c)
    ensures o.traffic == Quiet
  {
    Outcome(c.(minIndex := i), Quiet)
  }

  /** AddCachedMessage / AddCachedMetadata (with `hs` a single handle) and
      AddCachedChildren (with `hs` the child-edge set): consumes one borrowed
      reference per handle of `hs`. Below the watermark the borrowed references
      are only released; otherwise a freshly retained copy of each is appended
      to the bucket for `i`, and the borrowed ones are released afterwards. */
  function Add(c: Cache, kind: Kind, i: Index, hs: seq<Handle>): (o: Outcome)
    ensures o.cache.minIndex == c.minIndex
    ensures forall k :: k != kind ==> Store(o.cache, k) == Store(c, k)
    ensures i < c.minIndex ==> o.cache == c
    ensures i >= c.minIndex ==>
      && Store(o.cache, kind).Keys == Store(c, kind).Keys + {i}
      && Store(o.cache, kind)[i] == Bucket(Store(c, kind), i) + hs
      && forall k :: k in Store(c, kind) && k != i ==> Store(o.cache, kind)[k] == Store(c, kind)[k]
    ensures o.traffic.retained == (if i < c.minIndex then multiset{} else multiset(hs))
    ensures o.traffic.forced == multiset(hs) && o.traffic.lazy == multiset{}
  {
    var borrowed := ReleaseAll(multiset(hs), true);
    if i < c.minIndex then
      Outcome(c, borrowed)
    else
      Outcome(Filed(c, kind, i, hs), Then(RetainAll(multiset(hs)), borrowed))
  }

  /** The cache with `hs` appended to the bucket for `i` in the map of `kind`. */
  function Filed(c: Cache, kind: Kind, i: Index, hs: seq<Handle>): (r: Cache)
    ensures r.minIndex == c.minIndex
    ensures forall k :: k != kind ==> Store(r, k) == Store(c, k)
    ensures Store(r, kind) == Append(Store(c, kind), i, hs)
  {
    WithStore(c, kind, Append(Store(c, kind), i, hs))
  }

  /** An add stores exactly the handles it admits, and nothing below the
      watermark. */
  lemma AddStores(c: Cache, kind: Kind, i: Index, hs: seq<Handle>)
    ensures Stored(Add(c, kind, i, hs).cache) == Stored(c) + (if i < c.minIndex then multiset{} else multiset(hs))
  {
    if i >= c.minIndex {
      var b := Store(c, kind);
      FlattenAppend(b, i, hs);
      StoredWith(c, kind, Append(b, i, hs));
    }
  }

  /** The net reference change of an add: each refused handle loses the
      borrowed reference, each admitted one gains a cache reference and loses the
      borrowed one, netting zero. The watermark itself is admitted. */
  lemma AddNet(c: Cache, kind: Kind, i: Index, hs: seq<Handle>, h: Handle)
    ensures Net(Add(c, kind, i, hs).traffic, h) == (if i < c.minIndex then -(multiset(hs)[h] as int) else 0)
  {
  }

  /** ReleaseCachedMessages / ReleaseCachedMetadata / ReleaseCachedChildren as
      intended: every handle in every bucket of `kind` with index at most
      `bound` is released once, with the given force flag, and each of those
      buckets is removed. Buckets above `bound` and the other maps stay. */
  ghost function Release(c: Cache, kind: Kind, bound: Index, force: bool): (o: Outcome)
    ensures o.cache.minIndex == c.minIndex
    ensures forall k :: k != kind ==> Store(o.cache, k) == Store(c, k)
    ensures forall k :: k in Store(o.cache, kind) <==> k in Store(c, kind) && k > bound
    ensures forall k :: k in Store(o.cache, kind) ==> Store(o.cache, kind)[k] == Store(c, kind)[k]
    ensures o.traffic.retained == multiset{}
    ensures Released(o.traffic) == Flatten(AtMost(Store(c, kind), bound))
    ensures force ==> o.traffic.lazy == multiset{}
    ensures !force ==> o.traffic.forced == multiset{}
  {
    var b := Store(c, kind);
    Outcome(WithStore(c, kind, Above(b, bound)), ReleaseAll(Flatten(AtMost(b, bound)), force))
  }

  /** Cleanup as intended: every stored handle of the three maps is released
      once with force, and the three maps are emptied. */
  ghost function Cleanup(c: Cache): (o: Outcome)
    ensures forall kind :: Store(o.cache, kind) == map[]
    ensures o.cache.minIndex == c.minIndex
    ensures Stored(o.cache) == multiset{}
    ensures o.traffic.retained == multiset{} && o.traffic.lazy == multiset{}
    ensures o.traffic.forced == Stored(c)
  {
    Outcome(Cache(map[], map[], map[], c.minIndex), ReleaseAll(Stored(c), true))
  }

  /** A release loses and duplicates no handle: what it releases plus what the
      cache still holds is what the cache held before. */
  lemma ReleaseConserves(c: Cache, kind: Kind, bound: Index, force: bool)
    ensures var o := Release(c, kind, bound, force);
            Stored(c) == Stored(o.cache) + Released(o.traffic)
  {
    var b := Store(c, kind);
    var o := Release(c, kind, bound, force);
    assert o.cache == WithStore(c, kind, Above(b, bound));
    FlattenSplit(b, bound);
    StoredWith(c, kind, Above(b, bound));
    Cancel(Stored(c), Stored(o.cache), Flatten(AtMost(b, bound)), Flatten(Above(b, bound)), Flatten(b));
  }

  lemma Cancel(s: multiset<Handle>, t: multiset<Handle>, x: multiset<Handle>, y: multiset<Handle>, xy: multiset<Handle>)
    requires t + xy == s + y && xy == x + y
    ensures s == t + x
  {
    forall h
      ensures s[h] == (t + x)[h]
    {
      assert (t + xy)[h] == (s + y)[h];
    }
  }

  /** After a release with bound B no index at most B is left, so releasing at
      B again changes nothing and releases nothing. */
  lemma ReleaseTwiceReleasesNothing(c: Cache, kind: Kind, bound: Index, force: bool, again: bool)
    ensures var first := Release(c, kind, bound, force);
            var second := Release(first.cache, kind, bound, again);
            second.cache == first.cache && Released(second.traffic) == multiset{}
  {
    var first := Release(c, kind, bound, force);
    var second := Release(first.cache, kind, bound, again);
    assert AtMost(Store(first.cache, kind), bound) == map[];
    assert Store(second.cache, kind) == Store(first.cache, kind);
    assert forall k :: Store(second.cache, k) == Store(first.cache, k);
  }

  /** A second Cleanup finds nothing left to release. */
  lemma CleanupTwiceIsQuiet(c: Cache)
    ensures var first := Cleanup(c);
            var second := Cleanup(first.cache);
            second.cache == first.cache && second.traffic == Quiet
  {
    var first := Cleanup(c);
    assert first.cache == Cache(map[], map[], map[], c.minIndex);
  }

  /** An add consumes exactly the references lent for it: on admission they
      become the cache's own, on refusal they are given back. */
  lemma AddAccounts(c: Cache, kind: Kind, i: Index, hs: seq<Handle>, l: Ledger, lent: multiset<Handle>)
    requires Accounts(c, l, lent) && multiset(hs) <= lent
    ensures Accounts(Add(c, kind, i, hs).cache, Then(l, Add(c, kind, i, hs).traffic), lent - multiset(hs))
  {
    AddStores(c, kind, i, hs);
    AccountsStep(c, Add(c, kind, i, hs), l, lent, multiset(hs));
  }

  /** A release gives back exactly the references of the buckets it removes. */
  lemma ReleaseAccounts(c: Cache, kind: Kind, bound: Index, force: bool, l: Ledger, lent: multiset<Handle>)
    requires Accounts(c, l, lent)
    ensures Accounts(Release(c, kind, bound, force).cache, Then(l, Release(c, kind, bound, force).traffic), lent)
  {
    ReleaseConserves(c, kind, bound, force);
    AccountsStep(c, Release(c, kind, bound, force), l, lent, multiset{});
  }

  /** A step that uses `used` of the lent references, and stores or releases
      each reference it uses or retains, keeps the accounting. */
  lemma AccountsStep(c: Cache, o: Outcome, l: Ledger, lent: multiset<Handle>, used: multiset<Handle>)
    requires Accounts(c, l, lent) && used <= lent
    requires Stored(c) + used + o.traffic.retained == Stored(o.cache) + Released(o.traffic)
    ensures Accounts(o.cache, Then(l, o.traffic), lent - used)
  {
    var rest := lent - used;
    assert lent == rest + used;
    Rebalance(l.retained, Released(l), Stored(c), rest, used, o.traffic.retained, Stored(o.cache), Released(o.traffic));
  }

  /** The multiset arithmetic of one accounting step. */
  lemma Rebalance(
    before: multiset<Handle>, released: multiset<Handle>, stored: multiset<Handle>, rest: multiset<Handle>,
    used: multiset<Handle>, retained: multiset<Handle>, storedAfter: multiset<Handle>, releasedNow: multiset<Handle>)
    requires before == released + stored + (rest + used)
    requires stored + used + retained == storedAfter + releasedNow
    ensures before + retained == (released + releasedNow) + storedAfter + rest
  {
    forall h
      ensures (before + retained)[h] == ((released + releasedNow) + storedAfter + rest)[h]
    {
      assert (stored + used + retained)[h] == (storedAfter + releasedNow)[h];
    }
  }

  lemma CleanupAccounts(c: Cache, l: Ledger, lent: multiset<Handle>)
    requires Accounts(c, l, lent)
    ensures Accounts(Cleanup(c).cache, Then(l, Cleanup(c).traffic), lent)
  {
  }

  /** References dispatched to a handler are lent to it until it hands them to
      the cache. */
  lemma Lend(c: Cache, l: Ledger, d: Ledger)
    requires Balanced(c, l) && Released(d) == multiset{}
    ensures Accounts(c, Then(l, d), d.retained)
  {
  }

  /** In a balanced cache, each handle's net reference count is its number of
      stored occurrences, so it is never released more often than retained. */
  lemma BalancedCounts(c: Cache, l: Ledger, h: Handle)
    requires Balanced(c, l)
    ensures Net(l, h) == Stored(c)[h] as int
    ensures Released(l)[h] <= l.retained[h]
  {
    assert l.retained[h] == Released(l)[h] + Stored(c)[h];
  }

  /** Cleanup on a balanced cache brings every handle's net count back to zero. */
  lemma CleanupSettles(c: Cache, l: Ledger, h: Handle)
    requires Balanced(c, l)
    ensures Net(Then(l, Cleanup(c).traffic), h) == 0
  {
    CleanupAccounts(c, l, multiset{});
    BalancedCounts(Cleanup(c).cache, Then(l, Cleanup(c).traffic), h);
  }

  /** CachedMessageCaller / CachedMetadataCaller hand the event handler one fresh
      reference per handle; the deferred release of an Add consumes exactly that
      reference, so the pair changes a handle's count by its newly stored
      occurrences. */
  lemma DispatchedAddNet(c: Cache, kind: Kind, i: Index, hs: seq<Handle>, h: Handle)
    ensures var o := Add(c, kind, i, hs);
            Net(Then(RetainAll(multiset(hs)), o.traffic), h) == Stored(o.cache)[h] as int - Stored(c)[h] as int
  {
    AddStores(c, kind, i, hs);
  }
}
